=== FILE: README.md ===
# Hotel management backend: verified model of its request handlers

This project models the two pieces of logic in a small hotel-listing backend (an
Express service over MongoDB) that can be stated precisely:

- **Authentication** (`routes/auth.js`). A process-wide map from email to a pending
  verification code and its expiry, and the user collection. *Send code* stores a fresh
  six-hex-digit code for five minutes and mails it. *Register* checks, in order:
  missing fields, no pending code, a stale code (which it discards), a wrong code, then
  an existing user with the same email or username, then the schema validators. Only
  then does it append the user and discard the code. *Login* finds the user with that
  username and password and overwrites that user's token.
- **Hotel service** (`routes/hotel.js`). *Create* applies a required-field test, defaults
  and schema validation. *List* applies an equality filter, sorts newest first, pages
  with skip/limit and counts pages. *Detail* is a lookup that fails with 404. *Update*
  is a shallow field merge that stamps `updatedAt`. *Delete* removes a record, or fails
  with 404.
- **Records** (`models/User.js`, `models/Hotel.js`). These give the datatypes, their
  validity predicates (lengths, ranges, enums), their defaults, and the `trim` and
  `lowercase` setters applied when a document is built.

The handlers that change state are methods of two classes: `Auth.AuthService` holds the
code map and the users, and `HotelService.HotelTable` holds the hotels. A collection is
a `seq` in natural (insertion) order, so `findOne` returns the first match in that
order. The clock, the random bytes and the outcome of mail dispatch are parameters.
Fresh ids come from a counter. Every handler returns a `Result`, and `Status` maps it
to the `code` of the response envelope (200/400/401/404/500).

Three behaviours of the code shape the contracts:

- Registration fetches one user matching either the email or the username, and
  compares that user's stored email with the email as typed. The stored
  email has gone through the `lowercase` setter, and the query values go through the same
  setters. So a collision on a differently-cased email is reported as a taken username
  (`Auth.CaseVariantEmail`).
- `findByIdAndUpdate` does not run the schema validators. An update can store a rating
  of 10 or an unknown status (`HotelService.MergeSkipsValidators`). For this reason the
  hotel status fields are strings, and the table invariant does not include record
  validity.
- A page number below 1 gives a negative skip, which the database rejects, so the list
  handler answers 500.

## Model

| member | source | states |
|---|---|---|
| `Wrappers.FirstMatch` | routes/auth.js:102-104 | `findOne` in natural order: the index of the first matching document, no earlier one matches; `None` exactly when none matches |
| `Text.IsSpace` | models/User.js:12 | the characters `String.prototype.trim` removes: ASCII white space, no-break space, the Unicode space separators, the line and paragraph separators and the byte-order mark |
| `Text.TrimStart` | models/User.js:12 | the longest suffix not starting with white space; everything removed is white space |
| `Text.TrimEnd` | models/User.js:12 | the longest prefix not ending with white space; everything removed is white space |
| `Text.Trim` | models/User.js:12 | the `trim` setter: result has no white space at either end, is no longer than the input, and leaves trimmed strings alone |
| `Text.TrimEmpty` | models/User.js:12 | trimming gives the empty string exactly when the input is all white space |
| `Text.TrimIdempotent` | models/Hotel.js:34 | trimming twice is trimming once |
| `Text.Lower` | models/User.js:26 | the `lowercase` setter: same length, no upper-case ASCII letter left, lower-case strings unchanged; what each character becomes is `Text.LowerEach` |
| `Text.LowerEach` | models/User.js:26 | each upper-case ASCII letter becomes its lower-case letter and every other character is kept; with `Text.Lower`'s contract this determines the result |
| `Text.LowerKeepsTrimmed` | models/User.js:25-26 | lower-casing a trimmed string leaves it trimmed |
| `Text.LowerKeepsSpace` | models/User.js:25-26 | lower-casing turns a character into white space exactly when it was white space |
| `Text.TrimStartLower` | models/User.js:25-26 | dropping leading white space commutes with lower-casing |
| `Text.TrimEndLower` | models/User.js:25-26 | dropping trailing white space commutes with lower-casing |
| `Text.SettersCommute` | models/User.js:25-26 | the email setters commute: trimming then lower-casing gives the same string as lower-casing then trimming, so the order `Text.NormalizeEmail` applies them in does not matter |
| `Text.NormalizeEmail` | models/User.js:21-27 | a stored email is trimmed and lower-case; an already normal email is unchanged |
| `Text.NormalizeBob` | models/User.js:25-26 | the email " Bob@x.com " is stored as "bob@x.com" |
| `Text.NormalizeEmailIdempotent` | models/User.js:21-27 | normalising a stored email again changes nothing |
| `Hex.HexDigit` | routes/auth.js:32 | a nibble becomes one lower-case hexadecimal character |
| `Hex.DigitValue` | routes/auth.js:32 | a character has a digit value exactly when it is lower-case hexadecimal, and that value's digit is the character |
| `Hex.Encode` | routes/auth.js:32 | `toString('hex')`: two hexadecimal characters per byte |
| `Hex.Decode` | routes/auth.js:32 | a decoded string has half as many bytes as characters |
| `Hex.DecodeEncode` | routes/auth.js:32 | decoding an encoding gives the bytes back |
| `Hex.EncodeDecode` | routes/auth.js:32 | encoding a decoding gives the string back: the encoding is a bijection onto even-length hex |
| `Hex.DecodeTotal` | routes/auth.js:32 | every even-length hexadecimal string decodes |
| `Hex.GenerateCode` | routes/auth.js:31-33 | `generateCode`: three random bytes give six hexadecimal characters that decode back to them |
| `Hex.GenerateToken` | routes/auth.js:164 | the login token: thirty-two random bytes give sixty-four hexadecimal characters that decode back to them |
| `UserModel.RoleName` | models/User.js:34 | the enum string stored for each role: user, merchant, admin; `UserModel.ParseRoleName` proves it parses back |
| `UserModel.ParseRole` | models/User.js:32-36 | the role enum: accepted exactly for user, merchant and admin, naming the role given |
| `UserModel.ParseRoleName` | models/User.js:32-36 | every role's name parses back to that role |
| `UserModel.ValidUser` | models/User.js:7-31 | the user schema's validators on a record whose setters have run: trimmed username of 3 to 20 characters, password of at least 6, a non-empty trimmed lower-case email, a trimmed phone; its consequences for new users are in `UserModel.NewUserValid` |
| `UserModel.Public` | routes/auth.js:129-134 | the user fields a response carries: id, username, email and role, never the password |
| `UserModel.NewUser` | models/User.js:7-47 | a new user has trimmed username, normalised email, role defaulting to user, status active, no token, and a supplied phone trimmed |
| `UserModel.NewUserValid` | models/User.js:7-31 | a new user passes the validators exactly when the trimmed username has 3 to 20 characters, the password at least 6 and the trimmed email is non-empty |
| `HotelModel.ValidRoomType` | models/Hotel.js:7-28 | the room-type schema: a non-empty name, price at least 0, capacity at least 1, count at least 0 |
| `HotelModel.AllRoomTypesValid` | models/Hotel.js:67 | every embedded room type passes its schema |
| `HotelModel.ValidHotel` | models/Hotel.js:30-100 | the hotel schema's validators: trimmed name of 2 to 50 characters, non-empty city, price at least 0, rating in [0, 5], valid room types, status and publishStatus among their enum values; stated for new hotels by `HotelModel.NewHotel` and `HotelService.BuildHotelValid` |
| `HotelModel.NewHotel` | models/Hotel.js:30-103 | a new hotel has a trimmed name, status pending, publishStatus unpublished, empty rejectReason and both timestamps at creation; it passes validation exactly when the name has 2 to 50 characters, the city is non-empty, price is at least 0, rating lies in [0, 5] and every room type has a name, price at least 0, capacity at least 1 and count at least 0 |
| `Auth.Status` | routes/auth.js:84-184 | every auth response code is 200, 400, 401 or 500; 200 exactly on success, 401 exactly for bad credentials, 500 exactly for mail or save failure |
| `Auth.Collides` | routes/auth.js:102-104 | the `$or` filter with the schema setters applied to its values: the stored email equals the normalised email, or the stored username equals the trimmed username |
| `Auth.HasCredentials` | routes/auth.js:157 | the login filter: the stored username equals the trimmed username and the stored password equals the password as typed |
| `Auth.FindCollision` | routes/auth.js:102-104 | the duplicate query: a user whose email equals the normalised email or whose username equals the trimmed username; `None` exactly when no user collides |
| `Auth.FindByCredentials` | routes/auth.js:157 | the login query: the first user with that trimmed username and that password; `None` exactly when there is none |
| `Auth.UsersValid` | models/User.js:7-31 | the user table invariant: every user passes the validators and has an id below the counter, and ids, usernames and emails are unique (the unique indexes); `Auth.AuthService.Register` and `Auth.AuthService.Login` preserve it |
| `Auth.CodesValid` | routes/auth.js:31-33 | the code map invariant: every pending code is six hexadecimal characters, as `generateCode` makes them; `Auth.AuthService.SendCode` preserves it |
| `Auth.Admit` | routes/auth.js:100-123 | the duplicate check and user creation: a collision fails with email-taken when the found user's stored email equals the email as typed, else username-taken, and only then; with no collision it fails (500) exactly when the role is outside the enum or the built user fails the validators; a success is a valid user under the next id with trimmed username, normalised email, the given password, role defaulting to user, status active, no token, and a supplied phone trimmed |
| `Auth.RemoveKeepsCodesValid` | routes/auth.js:94 | discarding a pending code keeps every remaining code six hexadecimal characters |
| `Auth.AppendKeepsUsersValid` | routes/auth.js:103-122 | appending a valid user that collides with nobody under a fresh id keeps ids, usernames and emails unique |
| `Auth.SetTokenKeepsUsersValid` | routes/auth.js:164-166 | overwriting one user's token keeps every user valid and ids, usernames and emails unique |
| `Auth.AuthService.constructor` | routes/auth.js:15 | the code map starts empty |
| `Auth.AuthService.SendCode` | routes/auth.js:40-73 | empty email: 400 and the map unchanged; otherwise the email's entry becomes the new code expiring five minutes on, other entries unchanged, and it stays even when mailing fails (500) |
| `Auth.AuthService.Register` | routes/auth.js:80-140 | the checks in source order with the state after each: missing fields or no code leave everything; a stale code is deleted; a mismatch keeps it; past the code check, any failure of `Auth.Admit` (a taken email or username, an invalid record) is reported with the code kept; success appends exactly the user `Auth.Admit` built and deletes the code, returning id, username, email and role but no password; uniqueness is preserved |
| `Auth.AuthService.Login` | routes/auth.js:148-186 | missing fields: 400; no user with that username and password: 401 and nothing changes; otherwise only that user's token is replaced, and the new token and the user's public fields are returned |
| `Auth.LoginFindsRegistered` | routes/auth.js:103-166 | a user appended because nobody had its username is the first one a login with its username and password finds |
| `Auth.RegisterTwice` | routes/auth.js:89-123 | after a successful registration, registering again with the same email fails with "get a code first" |
| `Auth.RegisterAtExpiry` | routes/auth.js:49-99 | a code is still accepted at exactly its expiry instant |
| `Auth.RegisterAfterExpiry` | routes/auth.js:93-96 | one millisecond after expiry the code is reported expired and deleted |
| `Auth.RegisterThenLogin` | routes/auth.js:114-180 | a user who has just registered logs in with the same credentials and gets their own public fields and the new token |
| `Auth.CaseVariantEmail` | routes/auth.js:103-110 | a collision on a differently-cased email is reported as username-taken and adds no user |
| `Listing.Matches` | routes/hotel.js:72-78 | equality on each supplied filter field (city, status, ownerId); an absent field constrains nothing |
| `Listing.SelectCounts` | routes/hotel.js:72-78 | the filter keeps each matching hotel exactly as often as the table holds it and drops every other one |
| `Listing.Select` | routes/hotel.js:72-78 | the filter: every selected hotel matches, a hotel is selected exactly when it is in the table and matches, and no hotel appears more often than in the table |
| `Listing.NewestFirst` | routes/hotel.js:79 | the order `sort({createdAt: -1})` produces: no hotel is preceded by one created later |
| `Listing.Insert` | routes/hotel.js:79 | one insertion-sort step placing a hotel before the first one created no later; its properties are `Listing.InsertPermutes` and `Listing.InsertNewestFirst` |
| `Listing.SortNewestFirst` | routes/hotel.js:79 | `sort({createdAt: -1})` as insertion sort; `Listing.SortNewestFirstCorrect` proves it a newest-first permutation |
| `Listing.InsertPermutes` | routes/hotel.js:79 | one insertion step adds exactly that hotel to the multiset of hotels |
| `Listing.InsertNewestFirst` | routes/hotel.js:79 | inserting into a newest-first list keeps it newest first, one longer |
| `Listing.SortNewestFirstCorrect` | routes/hotel.js:79 | `sort({createdAt: -1})`: the result is newest first and a permutation of the input |
| `Listing.Page` | routes/hotel.js:80-81 | `skip`/`limit`: at most `limit` hotels, the ones at positions `skip` onward |
| `Listing.PageCount` | routes/hotel.js:90 | `ceil(total / pageSize)`: the fewest pages of `pageSize` that hold `total` |
| `Listing.SkipSign` | routes/hotel.js:80 | the skip is negative exactly when the page is below 1 |
| `Listing.Skip` | routes/hotel.js:80 | the skip is `(page - 1) * pageSize` and is negative exactly for pages below 1 |
| `Listing.PageNewestFirst` | routes/hotel.js:79-81 | a page of a newest-first list is newest first |
| `Listing.PageOfSelection` | routes/hotel.js:72-81 | each listed item is a table hotel matching every supplied filter; the page is newest first and holds at most `pageSize` items |
| `Listing.SecondPageOfTwelve` | routes/hotel.js:78-90 | page 2 of size 5 over twelve matches is the sixth to tenth newest, out of three pages |
| `HotelService.Status` | routes/hotel.js:28-168 | every hotel response code is 200, 400, 404 or 500; 200 exactly on success, 404 exactly for a missing id, 400 exactly for missing required fields |
| `HotelService.MissingRequiredField` | routes/hotel.js:27 | the required-field test: name, city or ownerId empty, price absent, or a price of 0 (which is falsy) |
| `HotelService.OrElse` | routes/hotel.js:34-46 | a string field's default: a non-empty value is kept, an empty one is replaced by the default |
| `HotelService.BuildHotel` | routes/hotel.js:32-47 | create's defaults: empty strings for description, address, contact phone and owner name, empty lists for images, amenities and room types, 14:00 and 12:00 for check-in and check-out, rating 0, plus the schema defaults |
| `HotelService.BuildHotelValid` | routes/hotel.js:27-49 | a request past the required-field test is saved exactly when its trimmed name has 2 to 50 characters, its price is positive, its rating (if any) lies in [0, 5] and its room types are valid |
| `HotelService.Merge` | routes/hotel.js:127-131 | `{...req.body, updatedAt}` on the stored hotel: id and createdAt kept, updatedAt set to now, a supplied name trimmed, an absent name kept; the other fields are stated by `HotelService.MergeOverwrites` |
| `HotelService.MergeOverwrites` | routes/hotel.js:127-131 | for every patch, each field the body supplies overwrites the stored one and each field it leaves out is kept |
| `HotelService.MergeNoChange` | routes/hotel.js:127-131 | an update naming no field only stamps `updatedAt` |
| `HotelService.MergeRatingOnly` | routes/hotel.js:127-131 | an update of the rating alone leaves every other field, images included, unchanged |
| `HotelService.MergeIdempotent` | routes/hotel.js:127-131 | repeating an update at the same instant changes nothing more |
| `HotelService.MergeKeepsValid` | routes/hotel.js:127-131 | a field-by-field valid update of a valid hotel gives a valid hotel |
| `HotelService.MergeSkipsValidators` | routes/hotel.js:127-131 | since no validator runs on update, a rating of 10 is stored and breaks the schema's range |
| `HotelService.QueryOf` | routes/hotel.js:72-75 | a filter field is constrained exactly when its parameter is non-empty |
| `HotelService.IndexOf` | routes/hotel.js:105 | `findById`: a position holding that id, or `None` exactly when no hotel has it |
| `HotelService.DistinctIds` | models/Hotel.js:105 | no two stored hotels share an `_id` |
| `HotelService.TableValid` | models/Hotel.js:105 | the hotel table invariant: distinct ids, each below the id counter; `HotelService.HotelTable.Create`, `Update` and `Delete` preserve it |
| `HotelService.AppendKeepsTableValid` | routes/hotel.js:49-50 | appending a hotel under the next fresh id keeps ids distinct, and no stored hotel had that id |
| `HotelService.HotelTable.constructor` | models/Hotel.js:105 | the hotel collection starts empty and satisfies the table invariant |
| `HotelService.HotelTable.Create` | routes/hotel.js:19-61 | falsy name, city, price (0 included) or ownerId: 400 and nothing added; a record failing validation: 500 and nothing added; otherwise exactly the built record is appended under a fresh id, which is not in the table, the id counter advances, and the record is returned |
| `HotelService.HotelTable.List` | routes/hotel.js:68-97 | page and pageSize default to 1 and 10; `total` counts every match; `items` is that page of the matches sorted newest first, at most `pageSize` of them, each matching every supplied filter; `totalPages` is the page count; a page below 1 is 500 |
| `HotelService.HotelTable.Detail` | routes/hotel.js:103-119 | 404 exactly when no hotel has the id; otherwise a stored hotel with that id |
| `HotelService.HotelTable.Update` | routes/hotel.js:125-147 | 404 with the table unchanged for an absent id; otherwise only that hotel is replaced by its merge with the update, stamped now, and returned |
| `HotelService.HotelTable.Delete` | routes/hotel.js:153-170 | 404 with the table unchanged for an absent id; otherwise exactly that record is removed, the rest keep their order, and no hotel with that id remains |
| `HotelService.DeleteTwice` | routes/hotel.js:153-165 | deleting the same id twice gives 200 then 404 |
| `HotelService.CreateThenDetail` | routes/hotel.js:49-113 | a hotel just created is returned by a detail request for its id |
| `HotelService.LotusInn` | routes/hotel.js:27-47 | creating "Lotus Inn" in Xi'an at 299 for a well-formed ObjectId owner succeeds with status pending, publishStatus unpublished and no room types |

## Left out

- Mail dispatch over SMTP, its credentials and the message text: the outcome is the boolean `mailSent`.
- `crypto.randomBytes` and `Date.now()`: the bytes and the current time in milliseconds are parameters; ObjectId generation is a counter.
- Database failures other than schema validation (lost connection, server errors) and the 500 responses they cause.
- Casting: malformed ids in queries, non-numeric prices or ratings, and the `CastError` they raise; JavaScript `Number()` coercion and NaN. Request values arrive typed, and an absent or empty string field is the empty string.
- Room types always carry a price, a capacity and a count. In a create body, a room type missing one of them fails the `required` validator and the handler answers 500; the model cannot express that input.
- HotelService.HotelTable.Create: `ownerId` is a string standing for a well-formed ObjectId. The schema types it as an ObjectId, so at create an owner id that does not cast (such as "u1") makes `save()` reject with 500; the model does not capture that rejection. The same holds for an `ownerId` in an update body.
- Prices and ratings are exact reals, not IEEE doubles.
- The unique indexes on username and email are not checked at insert. The duplicate query already sees every stored user, so in a sequential model the index never rejects anything.
- Which user `findOne` returns when two users collide (one on email, one on username) is left to the database's query plan; the model takes the first in table order.
- The order of hotels with equal `createdAt` is unspecified in MongoDB; the model fixes one order.
- HotelService.HotelTable.List: requires a page size of at least 1. A page size of 0 (no limit, `Infinity` pages), negative or fractional page sizes are not modelled.
- Text.Lower: lower-cases ASCII letters only, not the rest of Unicode.
- Lengths count characters, not UTF-16 code units.
- Property names inherited by a plain JavaScript object (`__proto__`, `constructor`, ...) used as emails in the code map.
- Update bodies naming `_id`, `createdAt`, `updatedAt` or fields outside the schema, and the setters and casts Mongoose runs on update values other than the name's `trim`.
- User timestamps: the user schema's `timestamps` option is not modelled, so users carry no `createdAt` or `updatedAt`, and the `updatedAt` that login's `user.save()` bumps is absent. Hotels carry both timestamps: set at creation and `updatedAt` stamped on update.
- Room types rebuilt from multipart form keys and uploaded image files are not part of this model. The hotel routes here contain neither.
- server.js (Express, CORS, body parsing, static files, the unused upload storage, `listen`) and config/database.js and config/db.js (connection side effects): not part of this model.
- Concurrent requests: races between the duplicate check and the insert, and unsynchronised access to the code map.

=== FILE: auth.dfy ===
/**
 * The authentication handlers of routes/auth.js: issuing an email verification code,
 * registering with it, and logging in. The process-wide code map and the user
 * collection are the fields of one object; the clock, the random bytes and the outcome
 * of mail dispatch are parameters.
 */
module Auth {

  import opened Wrappers
  import opened Text
  import opened Hex
  import opened UserModel

  /** A pending verification code and the instant (in milliseconds) after which it is stale. */
  datatype Entry = Entry(code: string, expires: int)

  /** Five minutes, in milliseconds. */
  const CodeLifetime: int := 5 * 60 * 1000

  /** The distinct failures the handlers report, each with its own message. */
  datatype AuthError =
    | MissingEmail        // sendCode without an email
    | MailFailed          // the code is stored but the mail could not be sent
    | MissingFields       // register without username, password, email or code
    | NoCode              // no pending code for the email
    | CodeExpired         // the pending code is stale (and is now discarded)
    | CodeMismatch        // the code differs from the pending one
    | EmailTaken          // the user found has this very email
    | UsernameTaken       // the user found has this username
    | SaveFailed          // the new user fails the schema validators
    | MissingCredentials  // login without username or password
    | BadCredentials      // no user has this username and password

  /** The numeric `code` of the response envelope. */
  function Status<T>(r: Result<T, AuthError>): (code: int)
    ensures code in {200, 400, 401, 500}
    ensures code == 200 <==> r.Success?
    ensures code == 401 <==> r == Failure(BadCredentials)
    ensures code == 500 <==> r == Failure(MailFailed) || r == Failure(SaveFailed)
  {
    match r
    case Success(_) => 200
    case Failure(e) =>
      match e
      case MailFailed => 500
      case SaveFailed => 500
      case BadCredentials => 401
      case _ => 400
  }

  /** What a successful login returns: the public user fields and the new token. */
  datatype Session = Session(user: PublicUser, token: string)

  /** The query `{ $or: [{ email }, { username }] }`, with the setters applied to its values. */
  predicate Collides(u: UserRecord, username: string, email: string) {
    u.email == NormalizeEmail(email) || u.username == Trim(username)
  }

  /** The query `{ username, password }`, with the `trim` setter applied to the username. */
  predicate HasCredentials(u: UserRecord, username: string, password: string) {
    u.username == Trim(username) && u.password == password
  }

  /** `User.findOne({ $or: [{ email }, { username }] })` */
  function FindCollision(users: seq<UserRecord>, username: string, email: string): (r: Option<nat>)
    ensures r.Some? ==> r.value < |users| && Collides(users[r.value], username, email)
    ensures r.None? <==> forall j :: 0 <= j < |users| ==> !Collides(users[j], username, email)
  {
    FirstMatch(users, (u: UserRecord) => Collides(u, username, email))
  }

  /** `User.findOne({ username, password })` */
  function FindByCredentials(users: seq<UserRecord>, username: string, password: string): (r: Option<nat>)
    ensures r.Some? ==> r.value < |users| && HasCredentials(users[r.value], username, password)
    ensures r.Some? ==> forall j :: 0 <= j < r.value ==> !HasCredentials(users[j], username, password)
    ensures r.None? <==> forall j :: 0 <= j < |users| ==> !HasCredentials(users[j], username, password)
  {
    FirstMatch(users, (u: UserRecord) => HasCredentials(u, username, password))
  }

  /**
   * Every stored user passes the schema validators and has a distinct id below
   * `nextId`, and no two users share a username or an email (the unique indexes).
   */
  ghost predicate UsersValid(users: seq<UserRecord>, nextId: nat) {
    && (forall i :: 0 <= i < |users| ==> ValidUser(users[i]) && users[i].id < nextId)
    && (forall i, j :: 0 <= i < j < |users| ==>
          users[i].id != users[j].id && users[i].username != users[j].username
          && users[i].email != users[j].email)
  }

  /** Every pending code is six hexadecimal characters. */
  ghost predicate CodesValid(codes: map<string, Entry>) {
    forall e :: e in codes ==> |codes[e].code| == 6 && IsHex(codes[e].code)
  }

  /** Discarding a pending code leaves every other code as it was. */
  lemma RemoveKeepsCodesValid(codes: map<string, Entry>, email: string)
    requires CodesValid(codes)
    ensures CodesValid(codes - {email})
  {
    forall e | e in codes - {email}
      ensures |(codes - {email})[e].code| == 6 && IsHex((codes - {email})[e].code)
    {
      assert (codes - {email})[e] == codes[e];
    }
  }

  /** A valid user that collides with no stored user can be appended under a fresh id. */
  lemma {:induction false} AppendKeepsUsersValid(users: seq<UserRecord>, nextId: nat, u: UserRecord, username: string, email: string)
    requires UsersValid(users, nextId)
    requires FindCollision(users, username, email).None?
    requires ValidUser(u) && u.id == nextId && u.username == Trim(username) && u.email == NormalizeEmail(email)
    ensures UsersValid(users + [u], nextId + 1)
  {
    var s := users + [u];
    forall i | 0 <= i < |s|
      ensures ValidUser(s[i]) && s[i].id < nextId + 1
    {
      if i < |users| {
        assert s[i] == users[i];
      }
    }
    forall i, j | 0 <= i < j < |s|
      ensures s[i].id != s[j].id && s[i].username != s[j].username && s[i].email != s[j].email
    {
      assert s[i] == users[i];
      if j == |users| {
        assert !Collides(users[i], username, email);
      } else {
        assert s[j] == users[j];
      }
    }
  }

  /** Replacing one user's token keeps every user valid and unique. */
  lemma {:induction false} SetTokenKeepsUsersValid(users: seq<UserRecord>, nextId: nat, i: nat, token: string)
    requires UsersValid(users, nextId) && i < |users|
    ensures UsersValid(users[i := users[i].(token := Some(token))], nextId)
  {
    var s := users[i := users[i].(token := Some(token))];
    forall j, k | 0 <= j < k < |s|
      ensures s[j].id != s[k].id && s[j].username != s[k].username && s[j].email != s[k].email
    {
      assert s[j].id == users[j].id && s[j].username == users[j].username && s[j].email == users[j].email;
      assert s[k].id == users[k].id && s[k].username == users[k].username && s[k].email == users[k].email;
    }
  }

  /**
   * The part of registration after the code check: the duplicate query, then
   * `new User(...)` with `role || 'user'` and `save()`. A collision is reported as a
   * taken email when the found user's stored email equals the email as typed, else as
   * a taken username; a role outside the enum or a failed validator is a save failure.
   * Otherwise the user to append is returned.
   */
  function Admit(users: seq<UserRecord>, nextId: nat, username: string, password: string,
                 email: string, role: string, phone: Option<string>): (r: Result<UserRecord, AuthError>)
    ensures r.Failure? ==> r.error in {EmailTaken, UsernameTaken, SaveFailed}
    ensures r.Failure? && r.error != SaveFailed <==> FindCollision(users, username, email).Some?
    ensures FindCollision(users, username, email).Some? ==>
      var i := FindCollision(users, username, email).value;
      r == Failure(if users[i].email == email then EmailTaken else UsernameTaken)
    ensures r.Success? ==>
      && ValidUser(r.value) && r.value.id == nextId
      && r.value.username == Trim(username) && r.value.password == password
      && r.value.email == NormalizeEmail(email)
      && ParseRole(if role == [] then "user" else role) == Some(r.value.role)
      && r.value.status == Active && r.value.token == None
      && r.value.phone == (match phone case Some(p) => Some(Trim(p)) case None => None)
    ensures FindCollision(users, username, email).None? ==>
      (r.Failure? <==>
        || ParseRole(if role == [] then "user" else role).None?
        || !ValidUser(NewUser(nextId, username, password, email, phone, ParseRole(if role == [] then "user" else role))))
  {
    match FindCollision(users, username, email)
    case Some(i) =>
      if users[i].email == email then Failure(EmailTaken) else Failure(UsernameTaken)
    case None =>
      var parsed := ParseRole(if role == [] then "user" else role);
      var u := NewUser(nextId, username, password, email, phone, parsed);
      if parsed.None? || !ValidUser(u) then Failure(SaveFailed) else Success(u)
  }

  class AuthService {
    /** `verificationCodes`, keyed by the email exactly as the request gave it. */
    var codes: map<string, Entry>
    /** The user collection, in natural (insertion) order. */
    var users: seq<UserRecord>
    /** The next fresh user id. */
    var nextId: nat

    /**
     * Every stored user passes the schema validators, has a distinct id below `nextId`,
     * and no two users share a username or an email; every pending code is six
     * hexadecimal characters.
     */
    ghost predicate Valid()
      reads this
    {
      UsersValid(users, nextId) && CodesValid(codes)
    }

    constructor ()
      ensures Valid() && codes == map[] && users == []
    {
      codes := map[];
      users := [];
      nextId := 0;
    }

    /**
     * POST /sendCode. A non-empty email gets a fresh code valid for five minutes,
     * replacing any earlier one; the code stays stored even when the mail fails.
     */
    method SendCode(email: string, rnd: seq<Byte>, now: int, mailSent: bool) returns (r: Result<(), AuthError>)
      requires Valid() && |rnd| == 3
      modifies this
      ensures Valid() && users == old(users) && nextId == old(nextId)
      ensures email == [] ==> r == Failure(MissingEmail) && codes == old(codes)
      ensures email != [] ==> codes == old(codes)[email := Entry(GenerateCode(rnd), now + CodeLifetime)]
      ensures email != [] ==> r == if mailSent then Success(()) else Failure(MailFailed)
    {
      if email == [] {
        return Failure(MissingEmail);
      }
      var code := GenerateCode(rnd);
      codes := codes[email := Entry(code, now + CodeLifetime)];
      if !mailSent {
        return Failure(MailFailed);
      }
      return Success(());
    }

    /**
     * POST /register. The checks run in this order: missing fields, no pending code,
     * stale code (which is discarded), wrong code, then the first user colliding on
     * email or username, then the schema validators. Only success changes the users:
     * it appends one user and discards the pending code.
     */
    method Register(username: string, password: string, email: string, code: string,
                    role: string, phone: Option<string>, now: int) returns (r: Result<PublicUser, AuthError>)
      requires Valid()
      modifies this
      ensures Valid()
      ensures r.Failure? ==> users == old(users) && nextId == old(nextId)
      ensures username == [] || password == [] || email == [] || code == [] ==>
                r == Failure(MissingFields) && codes == old(codes)
      ensures username != [] && password != [] && email != [] && code != [] ==>
        if email !in old(codes) then
          r == Failure(NoCode) && codes == old(codes)
        else if now > old(codes)[email].expires then
          r == Failure(CodeExpired) && codes == old(codes) - {email}
        else if code != old(codes)[email].code then
          r == Failure(CodeMismatch) && codes == old(codes)
        else match Admit(old(users), old(nextId), username, password, email, role, phone)
          case Failure(e) => r == Failure(e) && codes == old(codes)
          case Success(u) =>
            && r == Success(Public(u))
            && users == old(users) + [u]
            && nextId == old(nextId) + 1
            && codes == old(codes) - {email}
    {
      if username == [] || password == [] || email == [] || code == [] {
        return Failure(MissingFields);
      }
      if email !in codes {
        return Failure(NoCode);
      }
      var stored := codes[email];
      if now > stored.expires {
        RemoveKeepsCodesValid(codes, email);
        codes := codes - {email};
        return Failure(CodeExpired);
      }
      if code != stored.code {
        return Failure(CodeMismatch);
      }
      var admitted := Admit(users, nextId, username, password, email, role, phone);
      if admitted.Failure? {
        return Failure(admitted.error);
      }
      var u := admitted.value;
      AppendKeepsUsersValid(users, nextId, u, username, email);
      RemoveKeepsCodesValid(codes, email);
      r := Success(Public(u));
      users, nextId, codes := users + [u], nextId + 1, codes - {email};
    }

    /**
     * POST /login. The first user with this username and password gets a new token,
     * which is returned; no other user changes.
     */
    method Login(username: string, password: string, rnd: seq<Byte>) returns (r: Result<Session, AuthError>)
      requires Valid() && |rnd| == 32
      modifies this
      ensures Valid() && codes == old(codes) && nextId == old(nextId) && |users| == |old(users)|
      ensures username == [] || password == [] ==> r == Failure(MissingCredentials) && users == old(users)
      ensures username != [] && password != [] ==>
        match FindByCredentials(old(users), username, password)
        case None => r == Failure(BadCredentials) && users == old(users)
        case Some(i) =>
          && users == old(users)[i := old(users)[i].(token := Some(GenerateToken(rnd)))]
          && r == Success(Session(Public(old(users)[i]), GenerateToken(rnd)))
    {
      if username == [] || password == [] {
        return Failure(MissingCredentials);
      }
      var found := FindByCredentials(users, username, password);
      if found.None? {
        return Failure(BadCredentials);
      }
      var i := found.value;
      var token := GenerateToken(rnd);
      SetTokenKeepsUsersValid(users, nextId, i, token);
      users := users[i := users[i].(token := Some(token))];
      r := Success(Session(Public(users[i]), token));
    }
  }

  /**
   * A user appended because nobody collided with its username is the first user a login
   * with that username and password finds.
   */
  lemma {:induction false} LoginFindsRegistered(users: seq<UserRecord>, u: UserRecord, username: string, password: string, email: string)
    requires FindCollision(users, username, email).None?
    requires u.username == Trim(username) && u.password == password
    ensures FindByCredentials(users + [u], username, password) == Some(|users|)
  {
    var s := users + [u];
    forall j | 0 <= j < |users|
      ensures !HasCredentials(s[j], username, password)
    {
      assert !Collides(users[j], username, email);
    }
    assert HasCredentials(s[|users|], username, password);
    var r := FindByCredentials(s, username, password);
    assert r.Some?;
    assert r == Some(|users|);
  }

  /**
   * Registering twice with the same code: once the first attempt succeeds, the code is
   * gone and the second attempt is told to get a code first.
   */
  method RegisterTwice(svc: AuthService, username: string, password: string, email: string, code: string,
                       role: string, phone: Option<string>, now: int)
    returns (first: Result<PublicUser, AuthError>, second: Result<PublicUser, AuthError>)
    requires svc.Valid()
    modifies svc
    ensures first.Success? ==> second == Failure(NoCode)
  {
    first := svc.Register(username, password, email, code, role, phone, now);
    second := svc.Register(username, password, email, code, role, phone, now);
  }

  /**
   * A code requested at `sent` is still accepted at `sent + CodeLifetime` (expiry is
   * strict), and registration at that instant does not report it as expired.
   */
  method RegisterAtExpiry(svc: AuthService, username: string, password: string, email: string,
                          rnd: seq<Byte>, sent: int, mailSent: bool)
    returns (r: Result<PublicUser, AuthError>)
    requires svc.Valid() && |rnd| == 3 && username != [] && password != [] && email != []
    modifies svc
    ensures r != Failure(CodeExpired) && r != Failure(CodeMismatch) && r != Failure(NoCode)
  {
    var sendResult := svc.SendCode(email, rnd, sent, mailSent);
    r := svc.Register(username, password, email, GenerateCode(rnd), "", None, sent + CodeLifetime);
  }

  /** One millisecond later the same code is reported expired and discarded. */
  method RegisterAfterExpiry(svc: AuthService, username: string, password: string, email: string,
                             rnd: seq<Byte>, sent: int, mailSent: bool)
    returns (r: Result<PublicUser, AuthError>)
    requires svc.Valid() && |rnd| == 3 && username != [] && password != [] && email != []
    modifies svc
    ensures r == Failure(CodeExpired) && email !in svc.codes
  {
    var sendResult := svc.SendCode(email, rnd, sent, mailSent);
    r := svc.Register(username, password, email, GenerateCode(rnd), "", None, sent + CodeLifetime + 1);
  }

  /** A user who has just registered can log in, and gets back their own public fields. */
  method RegisterThenLogin(svc: AuthService, username: string, password: string, email: string, code: string,
                           role: string, phone: Option<string>, now: int, rnd: seq<Byte>)
    returns (reg: Result<PublicUser, AuthError>, login: Result<Session, AuthError>)
    requires svc.Valid() && |rnd| == 32
    modifies svc
    ensures reg.Success? ==> login.Success? && login.value.user == reg.value
    ensures reg.Success? ==> login.value.token == GenerateToken(rnd)
  {
    ghost var before := svc.users;
    reg := svc.Register(username, password, email, code, role, phone, now);
    if reg.Success? {
      LoginFindsRegistered(before, svc.users[|before|], username, password, email);
    }
    login := svc.Login(username, password, rnd);
  }

  /**
   * The stored email is lower-cased but the handler compares it with the email as
   * typed: registering `Bob@x.com` when `bob@x.com` is taken is reported as a taken
   * username, though no username collided.
   */
  method CaseVariantEmail(svc: AuthService, code: string, now: int) returns (r: Result<PublicUser, AuthError>)
    requires svc.Valid() && code != []
    requires svc.users == [UserRecord(0, "alice", "secret1", "bob@x.com", None, User, Active, None)]
    requires "Bob@x.com" in svc.codes && svc.codes["Bob@x.com"] == Entry(code, now)
    modifies svc
    ensures r == Failure(UsernameTaken) && |svc.users| == 1
  {
    assert IsTrimmed("Bob@x.com");
    LowerBob();
    assert Collides(svc.users[0], "carol", "Bob@x.com");
    r := svc.Register("carol", "secret2", "Bob@x.com", code, "", None, now);
  }
}

=== FILE: hex.dfy ===
/**
 * Lower-case hexadecimal encoding of random bytes, as `randomBytes(n).toString('hex')`
 * produces the verification codes and login tokens.
 */
module Hex {

  import opened Wrappers

  type Byte = x: int | 0 <= x < 256

  /** The lower-case digit for a nibble. */
  function HexDigit(n: int): (c: char)
    requires 0 <= n < 16
    ensures IsHexChar(c)
  {
    if n < 10 then ('0' as int + n) as char else ('a' as int + n - 10) as char
  }

  predicate IsHexChar(c: char) {
    '0' <= c <= '9' || 'a' <= c <= 'f'
  }

  predicate IsHex(s: string) {
    forall k :: 0 <= k < |s| ==> IsHexChar(s[k])
  }

  /** The value of one lower-case hexadecimal digit. */
  function DigitValue(c: char): (r: Option<int>)
    ensures r.Some? <==> IsHexChar(c)
    ensures r.Some? ==> 0 <= r.value < 16 && HexDigit(r.value) == c
  {
    if '0' <= c <= '9' then Some(c as int - '0' as int)
    else if 'a' <= c <= 'f' then Some(c as int - 'a' as int + 10)
    else None
  }

  /** Two digits per byte, high nibble first. */
  function Encode(b: seq<Byte>): (r: string)
    ensures |r| == 2 * |b| && IsHex(r)
  {
    if b == [] then []
    else [HexDigit(b[0] / 16), HexDigit(b[0] % 16)] + Encode(b[1..])
  }

  function Decode(s: string): (r: Option<seq<Byte>>)
    ensures r.Some? ==> 2 * |r.value| == |s|
  {
    if |s| == 0 then Some([])
    else if |s| == 1 then None
    else match (DigitValue(s[0]), DigitValue(s[1]), Decode(s[2..]))
      case (Some(hi), Some(lo), Some(rest)) => Some([hi * 16 + lo] + rest)
      case _ => None
  }

  lemma {:induction false} DecodeEncode(b: seq<Byte>)
    ensures Decode(Encode(b)) == Some(b)
  {
    if b != [] {
      var s := Encode(b);
      assert s[2..] == Encode(b[1..]);
      DecodeEncode(b[1..]);
      assert DigitValue(s[0]) == Some(b[0] / 16);
      assert DigitValue(s[1]) == Some(b[0] % 16);
      assert [b[0]] + b[1..] == b;
    }
  }

  lemma {:induction false} EncodeDecode(s: string)
    requires Decode(s).Some?
    ensures Encode(Decode(s).value) == s
  {
    if |s| >= 2 {
      var b := Decode(s).value;
      EncodeDecode(s[2..]);
      assert b[1..] == Decode(s[2..]).value;
      var hi, lo := DigitValue(s[0]).value, DigitValue(s[1]).value;
      assert b[0] == hi * 16 + lo;
      assert b[0] / 16 == hi && b[0] % 16 == lo;
      assert Encode(b) == [s[0], s[1]] + s[2..];
    }
  }

  /** Every hexadecimal string of even length decodes. */
  lemma {:induction false} DecodeTotal(s: string)
    requires IsHex(s) && |s| % 2 == 0
    ensures Decode(s).Some?
  {
    if |s| >= 2 {
      DecodeTotal(s[2..]);
    }
  }

  /** `generateCode`: three random bytes give a six-character hexadecimal code. */
  function GenerateCode(rnd: seq<Byte>): (code: string)
    requires |rnd| == 3
    ensures |code| == 6 && IsHex(code)
    ensures Decode(code) == Some(rnd)
  {
    DecodeEncode(rnd);
    Encode(rnd)
  }

  /** The login token: thirty-two random bytes give sixty-four hexadecimal characters. */
  function GenerateToken(rnd: seq<Byte>): (token: string)
    requires |rnd| == 32
    ensures |token| == 64 && IsHex(token)
    ensures Decode(token) == Some(rnd)
  {
    DecodeEncode(rnd);
    Encode(rnd)
  }
}

=== FILE: hotel_model.dfy ===
/**
 * The hotel record of models/Hotel.js with its embedded room types: fields, the schema's
 * validators and its defaults. The two status fields are strings, because an update
 * does not run the enum validators and can store any string there.
 */
module HotelModel {

  import opened Text

  datatype RoomType = RoomType(name: string, price: real, capacity: real, count: real, amenities: seq<string>)

  /** `roomTypeSchema`: a name, a price of at least 0, a capacity of at least 1, a count of at least 0. */
  predicate ValidRoomType(t: RoomType) {
    t.name != [] && t.price >= 0.0 && t.capacity >= 1.0 && t.count >= 0.0
  }

  type HotelId = nat

  datatype Hotel = Hotel(
    id: HotelId,
    name: string,
    description: string,
    address: string,
    city: string,
    price: real,
    rating: real,
    images: seq<string>,
    amenities: seq<string>,
    roomTypes: seq<RoomType>,
    contactPhone: string,
    checkInTime: string,
    checkOutTime: string,
    ownerId: string,
    ownerName: string,
    status: string,
    publishStatus: string,
    rejectReason: string,
    createdAt: int,
    updatedAt: int)

  const StatusValues: set<string> := {"pending", "approved", "rejected"}
  const PublishValues: set<string> := {"published", "unpublished"}

  const DefaultStatus: string := "pending"
  const DefaultPublishStatus: string := "unpublished"
  const DefaultCheckIn: string := "14:00"
  const DefaultCheckOut: string := "12:00"

  /** `hotelSchema`'s validators, on a record whose `trim` setter has run. */
  predicate ValidHotel(h: Hotel) {
    && IsTrimmed(h.name) && 2 <= |h.name| <= 50
    && h.city != []
    && h.price >= 0.0
    && 0.0 <= h.rating <= 5.0
    && AllRoomTypesValid(h.roomTypes)
    && h.status in StatusValues
    && h.publishStatus in PublishValues
  }

  predicate AllRoomTypesValid(ts: seq<RoomType>) {
    forall i :: 0 <= i < |ts| ==> ValidRoomType(ts[i])
  }

  /**
   * `new Hotel({...})` saved at time `now`: the `trim` setter runs on the name, the
   * fields the caller does not set take the schema defaults, and both timestamps are `now`.
   * The record passes validation exactly when the name, city, price, rating and room
   * types do.
   */
  function NewHotel(id: HotelId, name: string, description: string, address: string, city: string,
                    price: real, rating: real, images: seq<string>, amenities: seq<string>,
                    roomTypes: seq<RoomType>, contactPhone: string, checkInTime: string,
                    checkOutTime: string, ownerId: string, ownerName: string, now: int): (h: Hotel)
    ensures h.id == id && h.name == Trim(name) && h.city == city && h.price == price && h.rating == rating
    ensures h.status == "pending" && h.publishStatus == "unpublished" && h.rejectReason == ""
    ensures h.createdAt == now && h.updatedAt == now
    ensures ValidHotel(h) <==>
      && 2 <= |Trim(name)| <= 50 && city != [] && price >= 0.0 && 0.0 <= rating <= 5.0
      && AllRoomTypesValid(roomTypes)
  {
    Hotel(id, Trim(name), description, address, city, price, rating, images, amenities, roomTypes,
          contactPhone, checkInTime, checkOutTime, ownerId, ownerName,
          DefaultStatus, DefaultPublishStatus, "", now, now)
  }
}

=== FILE: hotel_service.dfy ===
/**
 * The hotel handlers of routes/hotel.js over the hotel collection: create, list,
 * detail, update and delete. The collection is a field of one object; the clock is a
 * parameter and fresh ids come from a counter.
 */
module HotelService {

  import opened Wrappers
  import opened Text
  import opened HotelModel
  import opened Listing

  datatype HotelError =
    | MissingRequired   // name, city, price or ownerId is falsy
    | NotFound          // no hotel has the id
    | SaveFailed        // the new hotel fails the schema validators
    | QueryFailed       // the database rejects the query (a negative skip)

  /** The numeric `code` of the response envelope. */
  function Status<T>(r: Result<T, HotelError>): (code: int)
    ensures code in {200, 400, 404, 500}
    ensures code == 200 <==> r.Success?
    ensures code == 404 <==> r == Failure(NotFound)
    ensures code == 400 <==> r == Failure(MissingRequired)
  {
    match r
    case Success(_) => 200
    case Failure(e) =>
      match e
      case MissingRequired => 400
      case NotFound => 404
      case _ => 500
  }

  /**
   * The body of POST /create. A string field left out is the empty string; a price or
   * rating left out is `None`.
   */
  datatype CreateRequest = CreateRequest(
    name: string,
    description: string,
    address: string,
    city: string,
    price: Option<real>,
    rating: Option<real>,
    images: Option<seq<string>>,
    amenities: Option<seq<string>>,
    roomTypes: Option<seq<RoomType>>,
    contactPhone: string,
    checkInTime: string,
    checkOutTime: string,
    ownerId: string,
    ownerName: string)

  /** `!name || !city || !price || !ownerId`: a price of 0 is falsy too. */
  predicate MissingRequiredField(req: CreateRequest) {
    req.name == [] || req.city == [] || req.price.None? || req.price == Some(0.0) || req.ownerId == []
  }

  /** `s || d` on a string. */
  function OrElse(s: string, d: string): (r: string)
    ensures r == [] ==> s == [] && d == []
    ensures s != [] ==> r == s
    ensures s == [] ==> r == d
  {
    if s == [] then d else s
  }

  /** The document the create handler builds, with the handler's own defaults and the schema's. */
  function BuildHotel(req: CreateRequest, id: HotelId, now: int): (h: Hotel)
    requires req.price.Some?
    ensures h.id == id && h.name == Trim(req.name) && h.city == req.city && h.ownerId == req.ownerId
    ensures h.price == req.price.value && h.rating == req.rating.GetOr(0.0)
    ensures h.description == req.description && h.address == req.address
    ensures h.contactPhone == req.contactPhone && h.ownerName == req.ownerName
    ensures req.images.None? ==> h.images == []
    ensures req.amenities.None? ==> h.amenities == []
    ensures req.roomTypes.None? ==> h.roomTypes == []
    ensures req.images.Some? ==> h.images == req.images.value
    ensures req.amenities.Some? ==> h.amenities == req.amenities.value
    ensures req.roomTypes.Some? ==> h.roomTypes == req.roomTypes.value
    ensures req.checkInTime == [] ==> h.checkInTime == "14:00"
    ensures req.checkOutTime == [] ==> h.checkOutTime == "12:00"
    ensures req.checkInTime != [] ==> h.checkInTime == req.checkInTime
    ensures req.checkOutTime != [] ==> h.checkOutTime == req.checkOutTime
    ensures h.status == "pending" && h.publishStatus == "unpublished" && h.rejectReason == ""
    ensures h.createdAt == now && h.updatedAt == now
  {
    NewHotel(id, req.name, OrElse(req.description, ""), OrElse(req.address, ""), req.city,
             req.price.value, req.rating.GetOr(0.0), req.images.GetOr([]), req.amenities.GetOr([]),
             req.roomTypes.GetOr([]), OrElse(req.contactPhone, ""),
             OrElse(req.checkInTime, DefaultCheckIn), OrElse(req.checkOutTime, DefaultCheckOut),
             req.ownerId, OrElse(req.ownerName, ""), now)
  }

  /**
   * A request that passes the required-field test is saved exactly when its trimmed name
   * has 2 to 50 characters, its price is positive, its rating (if any) lies in [0, 5] and
   * its room types are valid.
   */
  lemma BuildHotelValid(req: CreateRequest, id: HotelId, now: int)
    requires !MissingRequiredField(req)
    ensures ValidHotel(BuildHotel(req, id, now)) <==>
      && 2 <= |Trim(req.name)| <= 50 && req.price.value > 0.0
      && (req.rating.Some? ==> 0.0 <= req.rating.value <= 5.0)
      && AllRoomTypesValid(req.roomTypes.GetOr([]))
  {
  }

  /** The body of PUT /:id: the schema fields it names, each `None` when left out. */
  datatype Patch = Patch(
    name: Option<string>,
    description: Option<string>,
    address: Option<string>,
    city: Option<string>,
    price: Option<real>,
    rating: Option<real>,
    images: Option<seq<string>>,
    amenities: Option<seq<string>>,
    roomTypes: Option<seq<RoomType>>,
    contactPhone: Option<string>,
    checkInTime: Option<string>,
    checkOutTime: Option<string>,
    ownerId: Option<string>,
    ownerName: Option<string>,
    status: Option<string>,
    publishStatus: Option<string>,
    rejectReason: Option<string>)

  const NoChange: Patch :=
    Patch(None, None, None, None, None, None, None, None, None, None, None, None, None, None, None, None, None)

  /**
   * `{ ...req.body, updatedAt: new Date() }` applied to a stored hotel: each field the
   * body names replaces the stored one (the name through its `trim` setter), every other
   * field is kept, and `updatedAt` becomes `now`. No validator runs.
   */
  function Merge(h: Hotel, p: Patch, now: int): (r: Hotel)
    ensures r.id == h.id && r.createdAt == h.createdAt && r.updatedAt == now
    ensures p.name.Some? ==> r.name == Trim(p.name.value) && IsTrimmed(r.name)
    ensures p.name.None? ==> r.name == h.name
  {
    Hotel(h.id,
          match p.name case Some(n) => Trim(n) case None => h.name,
          p.description.GetOr(h.description), p.address.GetOr(h.address), p.city.GetOr(h.city),
          p.price.GetOr(h.price), p.rating.GetOr(h.rating), p.images.GetOr(h.images),
          p.amenities.GetOr(h.amenities), p.roomTypes.GetOr(h.roomTypes),
          p.contactPhone.GetOr(h.contactPhone), p.checkInTime.GetOr(h.checkInTime),
          p.checkOutTime.GetOr(h.checkOutTime), p.ownerId.GetOr(h.ownerId),
          p.ownerName.GetOr(h.ownerName), p.status.GetOr(h.status),
          p.publishStatus.GetOr(h.publishStatus), p.rejectReason.GetOr(h.rejectReason),
          h.createdAt, now)
  }

  /** Every field the update names is overwritten (the name through `trim`); every other field is kept. */
  lemma MergeOverwrites(h: Hotel, p: Patch, now: int)
    ensures var r := Merge(h, p, now);
      && (p.description.Some? ==> r.description == p.description.value)
      && (p.description.None? ==> r.description == h.description)
      && (p.address.Some? ==> r.address == p.address.value)
      && (p.address.None? ==> r.address == h.address)
      && (p.city.Some? ==> r.city == p.city.value)
      && (p.city.None? ==> r.city == h.city)
      && (p.price.Some? ==> r.price == p.price.value)
      && (p.price.None? ==> r.price == h.price)
      && (p.rating.Some? ==> r.rating == p.rating.value)
      && (p.rating.None? ==> r.rating == h.rating)
      && (p.images.Some? ==> r.images == p.images.value)
      && (p.images.None? ==> r.images == h.images)
      && (p.amenities.Some? ==> r.amenities == p.amenities.value)
      && (p.amenities.None? ==> r.amenities == h.amenities)
      && (p.roomTypes.Some? ==> r.roomTypes == p.roomTypes.value)
      && (p.roomTypes.None? ==> r.roomTypes == h.roomTypes)
      && (p.contactPhone.Some? ==> r.contactPhone == p.contactPhone.value)
      && (p.contactPhone.None? ==> r.contactPhone == h.contactPhone)
      && (p.checkInTime.Some? ==> r.checkInTime == p.checkInTime.value)
      && (p.checkInTime.None? ==> r.checkInTime == h.checkInTime)
      && (p.checkOutTime.Some? ==> r.checkOutTime == p.checkOutTime.value)
      && (p.checkOutTime.None? ==> r.checkOutTime == h.checkOutTime)
      && (p.ownerId.Some? ==> r.ownerId == p.ownerId.value)
      && (p.ownerId.None? ==> r.ownerId == h.ownerId)
      && (p.ownerName.Some? ==> r.ownerName == p.ownerName.value)
      && (p.ownerName.None? ==> r.ownerName == h.ownerName)
      && (p.status.Some? ==> r.status == p.status.value)
      && (p.status.None? ==> r.status == h.status)
      && (p.publishStatus.Some? ==> r.publishStatus == p.publishStatus.value)
      && (p.publishStatus.None? ==> r.publishStatus == h.publishStatus)
      && (p.rejectReason.Some? ==> r.rejectReason == p.rejectReason.value)
      && (p.rejectReason.None? ==> r.rejectReason == h.rejectReason)
  {
  }

  /** An update naming no field only stamps `updatedAt`. */
  lemma MergeNoChange(h: Hotel, now: int)
    ensures Merge(h, NoChange, now) == h.(updatedAt := now)
  {
  }

  /** An update of the rating alone leaves every other field, images included, as stored. */
  lemma MergeRatingOnly(h: Hotel, rating: real, now: int)
    ensures Merge(h, NoChange.(rating := Some(rating)), now) == h.(rating := rating, updatedAt := now)
  {
  }

  /** Sending the same update twice at the same instant gives the same record as sending it once. */
  lemma {:induction false} MergeIdempotent(h: Hotel, p: Patch, now: int)
    ensures Merge(Merge(h, p, now), p, now) == Merge(h, p, now)
  {
    if p.name.Some? {
      TrimIdempotent(p.name.value);
    }
  }

  /** A field-by-field valid update of a valid hotel gives a valid hotel. */
  lemma MergeKeepsValid(h: Hotel, p: Patch, now: int)
    requires ValidHotel(h)
    requires p.name.Some? ==> 2 <= |Trim(p.name.value)| <= 50
    requires p.city.Some? ==> p.city.value != []
    requires p.price.Some? ==> p.price.value >= 0.0
    requires p.rating.Some? ==> 0.0 <= p.rating.value <= 5.0
    requires p.roomTypes.Some? ==> AllRoomTypesValid(p.roomTypes.value)
    requires p.status.Some? ==> p.status.value in StatusValues
    requires p.publishStatus.Some? ==> p.publishStatus.value in PublishValues
    ensures ValidHotel(Merge(h, p, now))
  {
  }

  /** Because no validator runs on update, a rating of 10 is stored as given. */
  lemma MergeSkipsValidators(h: Hotel, now: int)
    requires ValidHotel(h)
    ensures !ValidHotel(Merge(h, NoChange.(rating := Some(10.0)), now))
  {
  }

  /** The query the list handler builds: a field is constrained only when its parameter is non-empty. */
  function QueryOf(city: string, status: string, ownerId: string): (q: Query)
    ensures q.city.Some? <==> city != []
    ensures q.status.Some? <==> status != []
    ensures q.ownerId.Some? <==> ownerId != []
  {
    Query(if city == [] then None else Some(city),
          if status == [] then None else Some(status),
          if ownerId == [] then None else Some(ownerId))
  }

  /** The `data` of a list response. */
  datatype ListData = ListData(items: seq<Hotel>, total: nat, page: int, pageSize: nat, totalPages: nat)

  /** Where in the collection the hotel with this id is. */
  function IndexOf(hotels: seq<Hotel>, id: HotelId): (r: Option<nat>)
    ensures r.Some? ==> r.value < |hotels| && hotels[r.value].id == id
    ensures r.None? <==> forall k :: 0 <= k < |hotels| ==> hotels[k].id != id
  {
    FirstMatch(hotels, (h: Hotel) => h.id == id)
  }

  /** No two hotels share an id. */
  ghost predicate DistinctIds(hotels: seq<Hotel>) {
    forall i, j :: 0 <= i < j < |hotels| ==> hotels[i].id != hotels[j].id
  }

  /** Distinct ids, each below the next fresh id. */
  ghost predicate TableValid(hotels: seq<Hotel>, nextId: nat) {
    DistinctIds(hotels) && forall k :: 0 <= k < |hotels| ==> hotels[k].id < nextId
  }

  /** Appending a hotel under the next fresh id keeps the ids distinct; no stored hotel had it. */
  lemma {:induction false} AppendKeepsTableValid(hotels: seq<Hotel>, nextId: nat, h: Hotel)
    requires TableValid(hotels, nextId) && h.id == nextId
    ensures TableValid(hotels + [h], nextId + 1)
    ensures IndexOf(hotels, h.id).None?
  {
    var s := hotels + [h];
    forall i, j | 0 <= i < j < |s|
      ensures s[i].id != s[j].id
    {
      if j == |hotels| {
        assert s[i] == hotels[i];
      }
    }
  }

  class HotelTable {
    /** The hotel collection, in natural (insertion) order. */
    var hotels: seq<Hotel>
    /** The next fresh hotel id. */
    var nextId: nat

    ghost predicate Valid()
      reads this
    {
      TableValid(hotels, nextId)
    }

    constructor ()
      ensures Valid() && hotels == []
    {
      hotels := [];
      nextId := 0;
    }

    /**
     * POST /create: 400 without name, city, price or ownerId; 500 when the built document
     * fails validation; otherwise the document is appended under a fresh id and returned.
     */
    method Create(req: CreateRequest, now: int) returns (r: Result<Hotel, HotelError>)
      requires Valid()
      modifies this
      ensures Valid()
      ensures MissingRequiredField(req) ==>
                r == Failure(MissingRequired) && hotels == old(hotels) && nextId == old(nextId)
      ensures !MissingRequiredField(req) && !ValidHotel(BuildHotel(req, old(nextId), now)) ==>
                r == Failure(SaveFailed) && hotels == old(hotels) && nextId == old(nextId)
      ensures !MissingRequiredField(req) && ValidHotel(BuildHotel(req, old(nextId), now)) ==>
                && r == Success(BuildHotel(req, old(nextId), now))
                && hotels == old(hotels) + [r.value]
                && nextId == old(nextId) + 1
                && IndexOf(old(hotels), r.value.id).None?
    {
      if MissingRequiredField(req) {
        return Failure(MissingRequired);
      }
      var h := BuildHotel(req, nextId, now);
      if !ValidHotel(h) {
        return Failure(SaveFailed);
      }
      AppendKeepsTableValid(hotels, nextId, h);
      hotels, nextId := hotels + [h], nextId + 1;
      r := Success(h);
    }

    /**
     * GET /list: `total` counts every hotel matching the supplied filters, `items` is the
     * requested page of them, newest first, and `totalPages` is the page count. A page
     * below 1 asks for a negative skip, which the database rejects.
     */
    method List(page: Option<int>, pageSize: Option<nat>, city: string, status: string, ownerId: string)
      returns (r: Result<ListData, HotelError>)
      requires pageSize.None? || pageSize.value >= 1
      ensures page.GetOr(1) < 1 ==> r == Failure(QueryFailed)
      ensures page.GetOr(1) >= 1 ==> r.Success?
      ensures r.Success? ==>
        var q := QueryOf(city, status, ownerId);
        var size := pageSize.GetOr(10);
        && r.value.page == page.GetOr(1) && r.value.pageSize == size
        && r.value.total == |Select(hotels, q)|
        && r.value.items == Page(SortNewestFirst(Select(hotels, q)), Skip(r.value.page, size), size)
        && r.value.totalPages == PageCount(r.value.total, size)
      ensures r.Success? ==>
        && |r.value.items| <= r.value.pageSize
        && NewestFirst(r.value.items)
        && forall k :: 0 <= k < |r.value.items| ==>
             r.value.items[k] in hotels && Matches(r.value.items[k], QueryOf(city, status, ownerId))
    {
      var p := page.GetOr(1);
      var size := pageSize.GetOr(10);
      var q := Query(None, None, None);
      if city != [] { q := q.(city := Some(city)); }
      if status != [] { q := q.(status := Some(status)); }
      if ownerId != [] { q := q.(ownerId := Some(ownerId)); }
      assert q == QueryOf(city, status, ownerId);
      var selected := Select(hotels, q);
      var total := |selected|;
      var skip := Skip(p, size);
      if skip < 0 {
        return Failure(QueryFailed);
      }
      var items := Page(SortNewestFirst(selected), skip, size);
      PageOfSelection(hotels, q, skip, size);
      r := Success(ListData(items, total, p, size, PageCount(total, size)));
    }

    /** GET /:id: the stored hotel with this id, or 404. */
    method Detail(id: HotelId) returns (r: Result<Hotel, HotelError>)
      ensures r.Failure? <==> forall k :: 0 <= k < |hotels| ==> hotels[k].id != id
      ensures r.Failure? ==> r.error == NotFound
      ensures r.Success? ==> r.value in hotels && r.value.id == id
    {
      var i := IndexOf(hotels, id);
      if i.None? {
        return Failure(NotFound);
      }
      r := Success(hotels[i.value]);
    }

    /**
     * PUT /:id: 404 with nothing changed when no hotel has the id; otherwise that hotel
     * alone is replaced by its merge with the patch, which is returned.
     */
    method Update(id: HotelId, p: Patch, now: int) returns (r: Result<Hotel, HotelError>)
      requires Valid()
      modifies this
      ensures Valid() && nextId == old(nextId)
      ensures match IndexOf(old(hotels), id)
        case None => r == Failure(NotFound) && hotels == old(hotels)
        case Some(i) =>
          && r == Success(Merge(old(hotels)[i], p, now))
          && hotels == old(hotels)[i := r.value]
    {
      var i := IndexOf(hotels, id);
      if i.None? {
        return Failure(NotFound);
      }
      var h := Merge(hotels[i.value], p, now);
      hotels := hotels[i.value := h];
      r := Success(h);
    }

    /**
     * DELETE /:id: 404 with nothing changed when no hotel has the id; otherwise that
     * hotel is removed, the others keep their order, and none with the id is left.
     */
    method Delete(id: HotelId) returns (r: Result<(), HotelError>)
      requires Valid()
      modifies this
      ensures Valid() && nextId == old(nextId)
      ensures match IndexOf(old(hotels), id)
        case None => r == Failure(NotFound) && hotels == old(hotels)
        case Some(i) => r == Success(()) && hotels == old(hotels)[..i] + old(hotels)[i + 1..]
      ensures IndexOf(hotels, id).None?
    {
      var i := IndexOf(hotels, id);
      if i.None? {
        return Failure(NotFound);
      }
      var k := i.value;
      ghost var before := hotels;
      hotels := hotels[..k] + hotels[k + 1..];
      forall j | 0 <= j < |hotels|
        ensures hotels[j].id != id
      {
        if j < k { assert hotels[j] == before[j]; } else { assert hotels[j] == before[j + 1]; }
      }
      r := Success(());
    }
  }

  /** Deleting the same id twice in a row: 200, then 404. */
  method DeleteTwice(t: HotelTable, id: HotelId) returns (first: Result<(), HotelError>, second: Result<(), HotelError>)
    requires t.Valid() && IndexOf(t.hotels, id).Some?
    modifies t
    ensures Status(first) == 200 && Status(second) == 404
  {
    first := t.Delete(id);
    second := t.Delete(id);
  }

  /** A hotel just created is found by its id. */
  method CreateThenDetail(t: HotelTable, req: CreateRequest, now: int) returns (created: Result<Hotel, HotelError>, found: Result<Hotel, HotelError>)
    requires t.Valid()
    modifies t
    ensures created.Success? ==> found == created
  {
    created := t.Create(req, now);
    if created.Success? {
      found := t.Detail(created.value.id);
      assert t.hotels[|t.hotels| - 1] == created.value;
    } else {
      found := Failure(NotFound);
    }
  }

  /**
   * `Create({name: "Lotus Inn", city: "Xi'an", price: 299, ownerId: "65a1b2c3d4e5f60718293a4b"})`,
   * with a well-formed ObjectId as owner: pending, unpublished, no room types.
   */
  lemma LotusInn(id: HotelId, now: int)
    ensures
      var req := CreateRequest("Lotus Inn", "", "", "Xi'an", Some(299.0), None, None, None, None, "", "", "", "65a1b2c3d4e5f60718293a4b", "");
      && !MissingRequiredField(req)
      && ValidHotel(BuildHotel(req, id, now))
      && BuildHotel(req, id, now).status == "pending"
      && BuildHotel(req, id, now).publishStatus == "unpublished"
      && BuildHotel(req, id, now).roomTypes == []
  {
    assert IsTrimmed("Lotus Inn");
  }
}

=== FILE: listing.dfy ===
/**
 * The pure part of GET /list in routes/hotel.js: the equality filter, the order by
 * creation time (newest first), the skip/limit page and the page count.
 */
module Listing {

  import opened Wrappers
  import opened HotelModel

  /** The query object; an absent field imposes no constraint. */
  datatype Query = Query(city: Option<string>, status: Option<string>, ownerId: Option<string>)

  predicate Matches(h: Hotel, q: Query) {
    && (q.city.Some? ==> h.city == q.city.value)
    && (q.status.Some? ==> h.status == q.status.value)
    && (q.ownerId.Some? ==> h.ownerId == q.ownerId.value)
  }

  /** The documents a query selects, in table order. */
  function Select(s: seq<Hotel>, q: Query): (r: seq<Hotel>)
    ensures |r| <= |s|
    ensures forall k :: 0 <= k < |r| ==> Matches(r[k], q)
    ensures forall h :: h in r <==> h in s && Matches(h, q)
    ensures multiset(r) <= multiset(s)
  {
    if s == [] then []
    else
      assert s == [s[0]] + s[1..];
      if Matches(s[0], q) then [s[0]] + Select(s[1..], q) else Select(s[1..], q)
  }

  /** The filter keeps every matching hotel as often as the table holds it, and drops the rest. */
  lemma {:induction false} SelectCounts(s: seq<Hotel>, q: Query, x: Hotel)
    ensures multiset(Select(s, q))[x] == if Matches(x, q) then multiset(s)[x] else 0
  {
    if s != [] {
      var rest := Select(s[1..], q);
      SelectCounts(s[1..], q, x);
      assert s == [s[0]] + s[1..];
      assert multiset(s) == multiset{s[0]} + multiset(s[1..]);
      if Matches(s[0], q) {
        assert Select(s, q) == [s[0]] + rest;
        assert multiset(Select(s, q)) == multiset{s[0]} + multiset(rest);
      } else {
        assert Select(s, q) == rest;
      }
    }
  }

  /** Newest first: no hotel is preceded by one created later. */
  predicate NewestFirst(s: seq<Hotel>) {
    forall i, j :: 0 <= i < j < |s| ==> s[i].createdAt >= s[j].createdAt
  }

  /** Puts `h` before the first hotel created no later than it. */
  function Insert(h: Hotel, s: seq<Hotel>): seq<Hotel> {
    if s == [] || s[0].createdAt <= h.createdAt then [h] + s
    else [s[0]] + Insert(h, s[1..])
  }

  /** The table ordered by `createdAt`, descending. */
  function SortNewestFirst(s: seq<Hotel>): seq<Hotel> {
    if s == [] then [] else Insert(s[0], SortNewestFirst(s[1..]))
  }

  /** Insertion adds exactly `h`. */
  lemma {:induction false} InsertPermutes(h: Hotel, s: seq<Hotel>)
    ensures multiset(Insert(h, s)) == multiset(s) + multiset{h}
  {
    if s != [] && s[0].createdAt > h.createdAt {
      InsertPermutes(h, s[1..]);
      assert Insert(h, s) == [s[0]] + Insert(h, s[1..]);
      assert s == [s[0]] + s[1..];
    }
  }

  /** Inserting into a newest-first list keeps it newest first; its head is `h` or the old head. */
  lemma {:induction false} InsertNewestFirst(h: Hotel, s: seq<Hotel>)
    requires NewestFirst(s)
    ensures NewestFirst(Insert(h, s))
    ensures |Insert(h, s)| == |s| + 1
    ensures Insert(h, s)[0] == h || (s != [] && Insert(h, s)[0] == s[0])
  {
    if s != [] && s[0].createdAt > h.createdAt {
      var rest := Insert(h, s[1..]);
      InsertNewestFirst(h, s[1..]);
      var r := [s[0]] + rest;
      assert Insert(h, s) == r;
      assert rest[0].createdAt <= s[0].createdAt;
      forall i, j | 0 <= i < j < |r|
        ensures r[i].createdAt >= r[j].createdAt
      {
        assert r[j] == rest[j - 1];
        if i > 0 {
          assert r[i] == rest[i - 1];
        }
      }
    }
  }

  /** Sorting gives a newest-first permutation of the table. */
  lemma {:induction false} SortNewestFirstCorrect(s: seq<Hotel>)
    ensures NewestFirst(SortNewestFirst(s))
    ensures multiset(SortNewestFirst(s)) == multiset(s)
  {
    if s != [] {
      SortNewestFirstCorrect(s[1..]);
      InsertNewestFirst(s[0], SortNewestFirst(s[1..]));
      InsertPermutes(s[0], SortNewestFirst(s[1..]));
      assert s == [s[0]] + s[1..];
    }
  }

  /** `.skip(skip).limit(limit)` */
  function Page(s: seq<Hotel>, skip: nat, limit: nat): (r: seq<Hotel>)
    ensures |r| <= limit
    ensures |r| == if skip >= |s| then 0 else if |s| - skip < limit then |s| - skip else limit
    ensures forall k :: 0 <= k < |r| ==> r[k] == s[skip + k]
  {
    if skip >= |s| then []
    else if |s| - skip < limit then s[skip..]
    else s[skip..skip + limit]
  }

  /** `Math.ceil(total / pageSize)` on naturals: the fewest pages of `pageSize` that hold `total`. */
  function PageCount(total: nat, pageSize: nat): (n: nat)
    requires pageSize >= 1
    ensures n * pageSize >= total
    ensures n == 0 || (n - 1) * pageSize < total
  {
    var n := (total + pageSize - 1) / pageSize;
    assert total + pageSize - 1 == n * pageSize + (total + pageSize - 1) % pageSize;
    n
  }

  /** `(page - 1) * pageSize` is negative exactly when the page is below 1. */
  lemma SkipSign(page: int, pageSize: nat)
    requires pageSize >= 1
    ensures (page - 1) * pageSize < 0 <==> page < 1
  {
    if page < 1 {
      assert (page - 1) * pageSize <= -1 * pageSize;
    } else {
      assert (page - 1) * pageSize >= 0 * pageSize;
    }
  }

  /** `(page - 1) * pageSize`, the number of hotels before the requested page. */
  function Skip(page: int, pageSize: nat): (k: int)
    requires pageSize >= 1
    ensures k < 0 <==> page < 1
    ensures page >= 1 ==> k == (page - 1) * pageSize
  {
    SkipSign(page, pageSize);
    (page - 1) * pageSize
  }

  /** A page of a newest-first list is newest first. */
  lemma PageNewestFirst(s: seq<Hotel>, skip: nat, limit: nat)
    requires NewestFirst(s)
    ensures NewestFirst(Page(s, skip, limit))
  {
  }

  /**
   * Every item of a page of the sorted selection is a hotel of the table that matches
   * the query, the page is newest first and holds at most `limit` hotels.
   */
  lemma {:induction false} PageOfSelection(s: seq<Hotel>, q: Query, skip: nat, limit: nat)
    ensures var items := Page(SortNewestFirst(Select(s, q)), skip, limit);
      && |items| <= limit && NewestFirst(items)
      && forall k :: 0 <= k < |items| ==> items[k] in s && Matches(items[k], q)
  {
    var sorted := SortNewestFirst(Select(s, q));
    var items := Page(sorted, skip, limit);
    SortNewestFirstCorrect(Select(s, q));
    PageNewestFirst(sorted, skip, limit);
    forall k | 0 <= k < |items|
      ensures items[k] in s && Matches(items[k], q)
    {
      assert items[k] in multiset(sorted);
    }
  }

  /**
   * Twelve matching hotels, page 2 of size 5: the sixth to tenth newest, out of three pages.
   */
  lemma SecondPageOfTwelve(s: seq<Hotel>)
    requires |s| == 12
    ensures Page(s, (2 - 1) * 5, 5) == s[5..10]
    ensures PageCount(|s|, 5) == 3
  {
  }
}

=== FILE: text.dfy ===
/**
 * The string setters the schemas declare: `trim` (JavaScript's String.prototype.trim)
 * and `lowercase` (String.prototype.toLowerCase, for ASCII letters).
 */
module Text {

  /** The characters JavaScript's `trim` removes: white space and line terminators. */
  predicate IsSpace(c: char) {
    || c == ' ' || c == '\t' || c == '\n' || c == '\r' || c == '\U{0B}' || c == '\U{0C}'
    || c == '\U{A0}' || c == '\U{1680}' || ('\U{2000}' <= c <= '\U{200A}')
    || c == '\U{2028}' || c == '\U{2029}' || c == '\U{202F}' || c == '\U{205F}'
    || c == '\U{3000}' || c == '\U{FEFF}'
  }

  /** A string as `trim` leaves it: no white space at either end. */
  predicate IsTrimmed(s: string) {
    s == [] || (!IsSpace(s[0]) && !IsSpace(s[|s| - 1]))
  }

  /** The longest suffix of `s` that does not start with white space. */
  function TrimStart(s: string): (r: string)
    ensures |r| <= |s| && r == s[|s| - |r|..]
    ensures forall k :: 0 <= k < |s| - |r| ==> IsSpace(s[k])
    ensures r == [] || !IsSpace(r[0])
  {
    if |s| > 0 && IsSpace(s[0]) then TrimStart(s[1..]) else s
  }

  /** The longest prefix of `s` that does not end with white space. */
  function TrimEnd(s: string): (r: string)
    ensures |r| <= |s| && r == s[..|r|]
    ensures forall k :: |r| <= k < |s| ==> IsSpace(s[k])
    ensures r == [] || !IsSpace(r[|r| - 1])
  {
    if |s| > 0 && IsSpace(s[|s| - 1]) then TrimEnd(s[..|s| - 1]) else s
  }

  /** The `trim` setter. */
  function Trim(s: string): (r: string)
    ensures IsTrimmed(r) && |r| <= |s|
    ensures IsTrimmed(s) ==> r == s
  {
    TrimEnd(TrimStart(s))
  }

  /** `trim` gives the empty string exactly for strings of white space only. */
  lemma TrimEmpty(s: string)
    ensures Trim(s) == [] <==> forall k :: 0 <= k < |s| ==> IsSpace(s[k])
  {
  }

  lemma TrimIdempotent(s: string)
    ensures Trim(Trim(s)) == Trim(s)
  {
  }

  function LowerChar(c: char): char {
    if 'A' <= c <= 'Z' then (c as int + 32) as char else c
  }

  predicate IsLower(s: string) {
    forall k :: 0 <= k < |s| ==> !('A' <= s[k] <= 'Z')
  }

  /** The `lowercase` setter, on ASCII letters. */
  function Lower(s: string): (r: string)
    ensures |r| == |s| && IsLower(r)
    ensures IsLower(s) ==> r == s
  {
    seq(|s|, k requires 0 <= k < |s| => LowerChar(s[k]))
  }

  /**
   * What `lowercase` does to each character: an upper-case ASCII letter becomes the
   * letter 32 code points on, its lower-case form; every other character is kept.
   */
  lemma LowerEach(s: string)
    ensures forall k :: 0 <= k < |s| ==>
      Lower(s)[k] == s[k] || ('A' <= s[k] <= 'Z' && Lower(s)[k] as int == s[k] as int + 32)
  {
    forall k | 0 <= k < |s|
      ensures Lower(s)[k] == LowerChar(s[k])
    {
    }
  }

  /** Lower-casing moves no white space, so a trimmed string stays trimmed. */
  lemma LowerKeepsTrimmed(s: string)
    requires IsTrimmed(s)
    ensures IsTrimmed(Lower(s))
  {
    if s != [] {
      assert Lower(s)[0] == LowerChar(s[0]);
      assert Lower(s)[|s| - 1] == LowerChar(s[|s| - 1]);
    }
  }

  /** Lower-casing turns no character into white space and no white space into anything else. */
  lemma LowerKeepsSpace(s: string, k: nat)
    requires k < |s|
    ensures |Lower(s)| == |s| && (IsSpace(Lower(s)[k]) <==> IsSpace(s[k]))
  {
    assert Lower(s)[k] == LowerChar(s[k]);
  }

  lemma {:induction false} TrimStartLower(s: string)
    ensures TrimStart(Lower(s)) == Lower(TrimStart(s))
  {
    if |s| > 0 {
      LowerKeepsSpace(s, 0);
      if IsSpace(s[0]) {
        forall k | 0 <= k < |s| - 1
          ensures Lower(s)[1..][k] == Lower(s[1..])[k]
        {
          assert Lower(s)[k + 1] == LowerChar(s[k + 1]);
          assert Lower(s[1..])[k] == LowerChar(s[1..][k]);
        }
        assert Lower(s)[1..] == Lower(s[1..]);
        TrimStartLower(s[1..]);
      }
    }
  }

  lemma {:induction false} TrimEndLower(s: string)
    ensures TrimEnd(Lower(s)) == Lower(TrimEnd(s))
  {
    if |s| > 0 {
      LowerKeepsSpace(s, |s| - 1);
      if IsSpace(s[|s| - 1]) {
        var n := |s| - 1;
        forall k | 0 <= k < n
          ensures Lower(s)[..n][k] == Lower(s[..n])[k]
        {
          assert Lower(s)[k] == LowerChar(s[k]);
          assert Lower(s[..n])[k] == LowerChar(s[..n][k]);
        }
        assert Lower(s)[..n] == Lower(s[..n]);
        TrimEndLower(s[..n]);
      }
    }
  }

  /**
   * The two email setters commute: trimming then lower-casing stores the same string as
   * lower-casing then trimming.
   */
  lemma SettersCommute(s: string)
    ensures Trim(Lower(s)) == Lower(Trim(s))
  {
    TrimStartLower(s);
    TrimEndLower(TrimStart(s));
  }

  /** What the user schema stores for an email: `trim`, then `lowercase`. */
  function NormalizeEmail(e: string): (r: string)
    ensures IsTrimmed(r) && IsLower(r)
    ensures IsTrimmed(e) && IsLower(e) ==> r == e
  {
    LowerKeepsTrimmed(Trim(e));
    Lower(Trim(e))
  }

  /** `" Bob@x.com "` is stored as `"bob@x.com"`. */
  lemma NormalizeBob()
    ensures NormalizeEmail(" Bob@x.com ") == "bob@x.com"
  {
    TrimBob();
    LowerBob();
  }

  lemma TrimBob()
    ensures Trim(" Bob@x.com ") == "Bob@x.com"
  {
    var typed, trimmed := " Bob@x.com ", "Bob@x.com";
    assert IsSpace(typed[0]) && typed[1..] == trimmed + " ";
    assert !IsSpace((trimmed + " ")[0]);
    assert TrimStart(typed) == trimmed + " ";
    assert IsSpace((trimmed + " ")[|trimmed|]) && (trimmed + " ")[..|trimmed|] == trimmed;
    assert !IsSpace(trimmed[|trimmed| - 1]);
    assert TrimEnd(trimmed + " ") == trimmed;
  }

  lemma LowerBob()
    ensures Lower("Bob@x.com") == "bob@x.com"
  {
    var trimmed, stored := "Bob@x.com", "bob@x.com";
    forall k | 0 <= k < |trimmed|
      ensures Lower(trimmed)[k] == stored[k]
    {
      assert Lower(trimmed)[k] == LowerChar(trimmed[k]);
    }
  }

  lemma NormalizeEmailIdempotent(e: string)
    ensures NormalizeEmail(NormalizeEmail(e)) == NormalizeEmail(e)
  {
  }
}

=== FILE: user_model.dfy ===
/**
 * The user record of models/User.js: its fields, the schema's validators and defaults,
 * and the setters (`trim`, `lowercase`) applied when a document is built.
 */
module UserModel {

  import opened Wrappers
  import opened Text

  datatype Role = User | Merchant | Admin
  datatype UserStatus = Active | Inactive | Banned

  function RoleName(r: Role): string {
    match r
    case User => "user"
    case Merchant => "merchant"
    case Admin => "admin"
  }

  /** The role enum validator: the request's role string, if it names a role. */
  function ParseRole(s: string): (r: Option<Role>)
    ensures r.Some? <==> s in {"user", "merchant", "admin"}
    ensures r.Some? ==> RoleName(r.value) == s
  {
    if s == "user" then Some(User)
    else if s == "merchant" then Some(Merchant)
    else if s == "admin" then Some(Admin)
    else None
  }

  lemma ParseRoleName(r: Role)
    ensures ParseRole(RoleName(r)) == Some(r)
  {
  }

  type UserId = nat

  datatype UserRecord = UserRecord(
    id: UserId,
    username: string,
    password: string,
    email: string,
    phone: Option<string>,
    role: Role,
    status: UserStatus,
    token: Option<string>)

  /** The schema's validators, on a record whose setters have run. */
  predicate ValidUser(u: UserRecord) {
    && IsTrimmed(u.username) && 3 <= |u.username| <= 20
    && 6 <= |u.password|
    && u.email != [] && IsTrimmed(u.email) && IsLower(u.email)
    && (u.phone.Some? ==> IsTrimmed(u.phone.value))
  }

  /**
   * `new User({...})`: setters applied, `role` and `status` given their defaults when
   * absent, no token yet.
   */
  function NewUser(id: UserId, username: string, password: string, email: string,
                   phone: Option<string>, role: Option<Role>): (u: UserRecord)
    ensures u.id == id && u.username == Trim(username) && u.password == password
    ensures u.email == NormalizeEmail(email)
    ensures u.role == role.GetOr(User) && u.status == Active && u.token == None
    ensures u.phone == match phone case Some(p) => Some(Trim(p)) case None => None
  {
    UserRecord(id, Trim(username), password, NormalizeEmail(email),
               match phone case Some(p) => Some(Trim(p)) case None => None,
               role.GetOr(User), Active, None)
  }

  /**
   * A new user passes the validators exactly when its trimmed username has 3 to 20
   * characters, its password at least 6, and its trimmed email is not empty.
   */
  lemma NewUserValid(id: UserId, username: string, password: string, email: string,
                     phone: Option<string>, role: Option<Role>)
    ensures ValidUser(NewUser(id, username, password, email, phone, role)) <==>
      3 <= |Trim(username)| <= 20 && 6 <= |password| && Trim(email) != []
  {
    if phone.Some? {
      assert IsTrimmed(Trim(phone.value));
    }
  }

  /** The fields a handler returns for a user; the password is not among them. */
  datatype PublicUser = PublicUser(id: UserId, username: string, email: string, role: Role)

  function Public(u: UserRecord): PublicUser
  {
    PublicUser(u.id, u.username, u.email, u.role)
  }
}

=== FILE: wrappers.dfy ===
/** Option and Result, used for lookups that can miss and for handlers that can fail. */
module Wrappers {

  datatype Option<+T> = None | Some(value: T) {
    function GetOr(default: T): T {
      match this
      case Some(v) => v
      case None => default
    }
  }

  datatype Result<+R, +E> = Success(value: R) | Failure(error: E)

  /** Index of the first element of `s` satisfying `p`, as a database `findOne` in natural order returns it. */
  function FirstMatch<T>(s: seq<T>, p: T -> bool): (r: Option<nat>)
    ensures r.Some? ==> r.value < |s| && p(s[r.value])
    ensures r.Some? ==> forall j :: 0 <= j < r.value ==> !p(s[j])
    ensures r.None? <==> forall j :: 0 <= j < |s| ==> !p(s[j])
  {
    if |s| == 0 then None
    else if p(s[0]) then Some(0)
    else match FirstMatch(s[1..], p)
      case None => None
      case Some(i) => Some(i + 1)
  }
}
